=== FILE: README.md ===
# Tic-tac-toe server: game state, session engine, client decisions and HTTP routing

A Dafny model of the core of a small two-player tic-tac-toe service. The model covers five parts:

- the shared game state of `app/types.ts`, where the player to move is derived from the lengths of the two move lists;
- the earlier game state of `src/types.ts`, which stores the turn;
- the earlier WebSocket engine of `src/index.ts`: session lookup, plays, registration, matchmaking and disconnects;
- the browser client's pure decisions in `client/client.ts`: which seat the viewer holds, scoreboard text, cell states, and the messages `join`, `play` and `onmessage` send;
- the HTTP front door of `app/http.ts`: the static-path sanitiser, the route choice and engine reset.

Modules, one per source file: `Common` (the `Option` and `Player` types and the move-list predicates), `AppTypes`, `SrcTypes`, `Engine` with `EngineProps`, `Client` and `Http`.

The engine is modelled as written. The session map is a sequence of `(id, session)` pairs in insertion order. `sessions.set` replaces an entry in place or appends one. A seat is an optional slot object, because `createSession` stores only `{ state }` (src/index.ts:126). Reading a field of a missing slot raises a TypeError in JavaScript. The model returns `Threw` in that case, with the map as it had been changed up to that point. This is how the model gets the following consequences, each proved:

- no slot object is ever created, and no identity is ever bound to a seat (`EngineProps.ReachableSessionsAreBare`);
- the first `join` on an empty server registers a session and then raises (`EngineProps.FirstJoinThrows`);
- on a server holding at least one such session, registering with an id, closing a connection and joining all raise, and an accepted play is recorded and then raises while broadcasting (`EngineProps.BareServerThrows`);
- matchmaking never seats anyone: on every map, a join that finds no earlier session for its identity creates a new slotless session and then raises reading its slot A (`EngineProps.MatchmakingAlwaysRaises`);
- the seating branch could not answer even if a slot existed: src/index.ts:101 calls `new PlayerJoinAction(..)`, but src/actions.ts exports no such class, so it raises after the slot was attached (`Engine.Seat`).

Other behaviour kept as written:

- `onPlay` flips the stored turn before it checks whether the cell is taken. A play onto a taken cell adds no move but still hands the turn over.
- `onPlay` trusts the seat named in the message. It does not check which connection sent the play.
- The server answers the `join` message kind. The client in `client/client.ts` sends `requestjoin` and `requestnew`, which this engine ignores as unknown kinds.

A later engine lives in `app/socket.ts`, which is not part of this model. The modelled files point to it: app/http.ts:3 imports `start` from it, the shared state of app/types.ts carries a `winner` (app/types.ts:23) and declares a `SessionSummary` (app/types.ts:53), and the client sends `requestjoin` and `requestnew` and handles `updatesessionlist` (client/client.ts:127-139, 184), none of which src/index.ts handles.

Modelled inputs:

- Ids from `uuid.v4()` are a `newId` parameter.
- A WebSocket is an opaque `Conn` number, compared by identity.
- `localStorage` is the client view's `stored` field.
- File existence is a `fileExists` predicate over the sanitised path.
- A message that `JSON.parse` rejects is `None`.
- Sends are returned as an outbox: a list of (connection, message) pairs.

## Model

| member | source | states |
|---|---|---|
| AppTypes.New | app/types.ts:17-31 | The constructor uses empty labels, a null winner and empty move lists by default. Every field given in the partial replaces its default. |
| AppTypes.FreshState | app/types.ts:17-40 | A state built with no overrides has empty labels, no winner, no moves, and A to move. |
| AppTypes.GameState.Turn | app/types.ts:33-40 | The getter returns B exactly when B has fewer moves than A. |
| AppTypes.TurnWithoutMovesOfA | app/types.ts:33-36 | It is A's turn whenever A has made no move. |
| AppTypes.TurnIsBIffBBehind | app/types.ts:33-40 | It is B's turn exactly when B has made fewer moves than A, and A's turn otherwise. The getter's separate empty-list test is subsumed by this comparison. |
| AppTypes.TurnMatchesParity | app/types.ts:33-40 | On move lists filled alternately from A, the derived turn is A after an even number of moves and B after an odd number. |
| AppTypes.TurnAlternates | app/types.ts:33-40 | Recording a move for the seat to move hands the turn to the other seat and keeps the counts alternating: from equal counts a move by A makes it B's turn, and from B one behind a move by B makes it A's turn. |
| AppTypes.MovesBounded | app/types.ts:12-16 | Neither seat's move list holds more than five positions. |
| AppTypes.ToJson | app/types.ts:42-50 | The JSON's `turn` is B exactly when B is behind A. Rebuilding a state from the JSON's fields gives back the original state. |
| AppTypes.JsonRoundTrip | app/types.ts:42-50 | The JSON carries exactly id, winner, turn, moves and players. Its turn equals the getter, and it loses nothing of the state. |
| SrcTypes.New | src/types.ts:20-31 | By default the turn is A and both move lists are empty. A supplied field overrides its default, and an omitted one keeps it. |
| SrcTypes.FreshState | src/types.ts:22-31 | A state built from an id alone has A to move and no moves. |
| SrcTypes.ConstructorKeepsOverrides | src/types.ts:29-31 | A partial that supplies every field gives back exactly those fields. |
| SrcTypes.Moves.Push | src/index.ts:48 | Appending a position grows the acting seat's list by exactly that position and leaves the other list alone. |
| SrcTypes.Moves.Taken | src/index.ts:44 | A position is taken exactly when it occurs in either seat's list. |
| SrcTypes.ToJson | src/types.ts:33-39 | The JSON form rebuilds to the same state. |
| SrcTypes.JsonRoundTrip | src/types.ts:33-39 | `toJSON` emits exactly id, turn and moves, unchanged. |
| Engine.Find | src/index.ts:23 | Returns the first position holding the key, and nothing exactly when no entry has that key. |
| Engine.Put | src/index.ts:127 | `sessions.set` appends a new key and replaces an existing key in place. Afterwards the key maps to the new session, other entries keep their positions, and keys stay unique. |
| Engine.CreateSession | src/index.ts:123-130 | Registers a session under the new id with no slot objects, turn A and empty moves. It is appended when the id is not yet present. |
| Engine.FirstOpen | src/index.ts:114-118 | Returns the first session in insertion order whose `playerB` is missing. It returns nothing exactly when every session has one. |
| Engine.FindAvailable | src/index.ts:113-121 | Returns the first session lacking `playerB`, with the map unchanged. When every session has `playerB`, it returns a new session registered under the new id. |
| Engine.FindPrevious | src/index.ts:107-111 | Finds the first session with a slot bound to the identity, where every earlier session passes the test without raising. The search misses exactly when every session has both slots and none is bound. It raises at the first session whose slot A is missing, or whose slot A does not match while slot B is missing. |
| Engine.Seat | src/index.ts:91-104 | Never returns and never sends. With slot A missing, or slot A connected and slot B missing, it raises with the map unchanged. Otherwise it first attaches the connection to slot B when slot A is connected, else to slot A, and then raises at `new PlayerJoinAction(..)`, which src/actions.ts does not export. |
| Engine.OnJoin | src/index.ts:78-105 | Reconnect comes first: the connection is re-attached to the slot bound to the identity, and the reply is that session's state. Otherwise matchmaking picks or creates a session and seating raises. A raise during the search leaves the map unchanged. A join never removes or renames a session and adds at most one. |
| Engine.Broadcast | src/index.ts:50-58 | Every message sent is the update. With both slot objects present, it goes exactly to their live connections, A's first, and the handler returns. At most one copy is sent per slot; a connection held by both slots receives two. A missing slot raises: with slot A missing nothing is sent; with slot B missing the update has already gone to A's live connection, if any. |
| Engine.OnPlay | src/index.ts:22-59 | Covers every case. An unknown session id changes nothing. A play out of turn changes nothing. A play in turn flips the turn. A taken cell adds no move and sends nothing. A free cell is appended to the acting seat's list only, and the opponent's list is unchanged; the update then goes out as `Broadcast` sends it, and the handler raises exactly when a slot object is missing. Other sessions and the slots never change. |
| Engine.ClearSlots | src/index.ts:63-71 | The `forEach` keeps every key and game state. It returns normally exactly when every session has both slots. It then clears a slot's connection exactly when the slot matches, and keeps its identity. |
| Engine.OnRegister | src/index.ts:61-76 | An absent or empty id changes nothing and gets a new id. A non-empty id clears the connection of every slot bound to it and is returned. If the loop raises, the change up to the raising session is exactly as the loop left it. On every path, no game state changes and every slot object keeps its identity. |
| Engine.ClearSlotsKeepsIdentities | src/index.ts:63-71 | Whether the loop returns or raises, every slot object survives and keeps its `playerId`: the loop only ever clears `client`. |
| Engine.OnClose | src/index.ts:163-173 | Clears exactly the slots whose connection is the closing one. It raises exactly when some session lacks a slot, and then the sessions before the raising one are detached, its slot A (if present) is detached, and the rest are untouched. On every path, game states are kept and every slot object keeps its identity. |
| Engine.Handle | src/index.ts:133-161 | An undecodable message and unknown kinds do nothing. A `join` without an id does nothing. `register` leaves the map as `onRegister` does and, unless that raised, replies to the sender with the supplied id when it is non-empty and the new id otherwise. A `join` with an id leaves the map as `onJoin` does and, unless that raised, sends its reply to the sender. A `play` is exactly `onPlay`. |
| Engine.Step | src/index.ts:133-184 | A listener error starts over with an empty map (src/index.ts:180-183). Any other event never removes or renames a session, and adds at most one. |
| Engine.GameStates | src/index.ts:195-204 | `getSessions` lists the game state of every session, in insertion order. |
| EngineProps.PushKeepsValid | src/index.ts:44-48 | Appending a position that neither list holds keeps both lists duplicate-free and disjoint. |
| EngineProps.PlayKeepsWellFormed | src/index.ts:42-48 | A play, accepted or rejected, keeps every session's move lists duplicate-free and disjoint. |
| EngineProps.TakenCellAddsNoMove | src/index.ts:44-46 | A play onto a cell held by either seat never adds a move, whoever makes it. |
| Engine.ClearSlotsThrewAt | src/index.ts:163-173 | When the loop raises at some session, the sessions before it are detached, that session's slot A (if present) is detached, and the sessions after it are untouched. |
| EngineProps.ClearSlotsIdempotent | src/index.ts:63-71 | Running the detaching loop a second time leaves exactly what the first run left, whether it raised or not. |
| EngineProps.CloseIdempotent | src/index.ts:163-173 | Closing the same connection twice has the effect of closing it once. |
| EngineProps.RegisterIdempotent | src/index.ts:61-76 | Registering the same identity twice detaches nothing more the second time. |
| EngineProps.MatchmakingAlwaysRaises | src/index.ts:91-120 | Whenever the search for an earlier session misses, every session has both slots, so a new slotless session is created and the join raises with exactly that session added and nothing sent. |
| EngineProps.FirstJoinThrows | src/index.ts:91-96 | On an empty server, `onJoin` registers a new session and then raises when it reads that session's missing slot A. |
| EngineProps.JoinKeepsWellFormed | src/index.ts:78-130 | A join keeps session ids unique and all move lists valid. |
| EngineProps.StepKeepsWellFormed | src/index.ts:133-184 | Any message, disconnect or listener failure keeps session ids unique and all move lists duplicate-free and disjoint. |
| EngineProps.RunKeepsWellFormed | src/index.ts:133-184 | Over any sequence of messages, disconnects and listener failures (after which the engine starts over with an empty map), ids stay unique and the two move lists of every session stay duplicate-free and pairwise disjoint. |
| EngineProps.BareClearThrows | src/index.ts:63-65 | On sessions without slot objects, the detaching loop raises at the first session before changing anything. |
| EngineProps.PlayKeepsBare | src/index.ts:22-59 | A play changes only game states, so slotless sessions stay slotless. |
| EngineProps.JoinKeepsBare | src/index.ts:78-130 | A join on slotless sessions raises, at worst after registering one more slotless session. |
| EngineProps.StepKeepsBare | src/index.ts:123-130 | No event creates a slot object. |
| EngineProps.ReachableSessionsAreBare | src/index.ts:123-130 | Starting from an empty server, after any events, every session lacks both slot objects, so no identity is ever bound to a seat. |
| EngineProps.BareServerThrows | src/index.ts:22-173 | With slotless sessions present, registering with an id, closing and joining all raise and leave the map unchanged. An accepted play on any of the sessions is recorded and then raises before any update is sent. |
| Client.Render | client/client.ts:28-110 | Nothing is drawn before a state arrives. The board shows the viewer's seat and the state's turn. The scoreboard text is the viewer's scoreboard text, and it is visible exactly when there is a winner. Of the nine cells, a cell is 'toe' exactly when B holds it and 'tac' exactly when A holds it and B does not. |
| Client.PlayerId | client/client.ts:24-26 | The viewer's id is the stored id, or '' when none is stored. |
| Client.CurrentPlayer | client/client.ts:19-22 | The viewer is seat A exactly when A's label is the viewer's id. |
| Client.Scoreboard | client/client.ts:36-38 | The text is empty exactly when there is no winner, and is 'You win!' exactly when the winner is the viewer. |
| Client.CellOf | client/client.ts:87-110 | A cell is 'toe' exactly when B's list holds its position, and 'tac' exactly when A's list holds it and B's does not. |
| Client.ViewerIsAIff | client/client.ts:19-26 | The viewer is A exactly when A's label equals the stored player id, and B otherwise. |
| Client.ScoreboardsAreOpposite | client/client.ts:36-38 | There is no text without a winner. With a winner, the winning seat reads 'You win!' and the other seat reads 'You lose!'. |
| Client.CellsIgnoreViewer | client/client.ts:70-110 | A cell's state is the same whichever seat views it. It is 'toe' exactly when B holds it, 'tac' exactly when A holds it and B does not, and 'tic' otherwise. |
| Client.ToeOverridesTac | client/client.ts:99-107 | A position held by both seats shows as 'toe'. |
| Client.Join | client/client.ts:179-194 | Nothing is sent without a socket. 'new' sends only `requestnew` with the stored id. An empty id becomes the held state's id, or '' when no state is held. Any other id is sent unchanged. |
| Client.EmptyJoinRejoinsCurrent | client/client.ts:188-192 | Joining with an empty id sends the same request as joining with the held session's own id. |
| Client.PlayMove | client/client.ts:196-211 | A play is sent exactly when there is a socket and a state. Its payload is the held session id, the viewer's id and the position. |
| Client.PlayActsAsRenderedSeat | client/client.ts:19-26 | The id a play carries decides the same seat that the board is drawn for. |
| Client.OnMessage | client/client.ts:118-147 | An undecodable message does nothing at all. `register` stores the id and sends `requestjoin` with that id and an empty session id. `update` replaces the held state. Every decoded message redraws from the new view. |
| Client.RegisteredIdIsUsed | client/client.ts:127-135 | After `register`, later plays carry the registered id. |
| Client.UpdateShowsServerTurn | client/client.ts:141-146 | After an update built from a server state, the board's turn is that state's derived turn. |
| Http.CollapseDots | app/http.ts:26 | The regular-expression rewrite never lengthens the path and keeps its first character. |
| Http.SanitizedPath | app/http.ts:26 | The sanitised path is the URL without its first character, with each run of dots reduced to one dot. It contains no "..", keeps every other character in order, and a second pass leaves it unchanged. |
| Http.CollapseIsSqueeze | app/http.ts:26 | The regular-expression rewrite, which collapses each greedy run of two or more dots, equals dropping every dot that is followed by another dot. |
| Http.SqueezeNoDoubleDot | app/http.ts:26 | The rewritten path never has two adjacent dots. |
| Http.SqueezeFixesClean | app/http.ts:26 | A path without ".." is left unchanged, so sanitising is idempotent. |
| Http.SqueezeKeepsNonDots | app/http.ts:26 | Characters other than dots survive in their order. |
| Http.Route | app/http.ts:20-55 | URL "/" gets the index page before any other check. A static file is served exactly when the URL ends in `.js` or `.css` and the sanitised file exists. Otherwise `sockets` answers '[]' without an engine and the engine address with one, leaving the server alone. Otherwise `reset` performs the reset, answers 'OK' and yields its effects. Every other request leaves the server alone with no effect, and the response is 404 exactly when neither route applies. |
| Http.SocketsAnswer | app/http.ts:34-44 | `sockets` answers '[]' when no engine runs. Otherwise it answers the one-element list with the engine address, and it changes nothing. |
| Http.SocketsBodyText | app/http.ts:9-12 | The advertised address is `ws://localhost:8080/ws`. |
| Http.Reset | app/http.ts:57-66 | A running engine is closed, once, before a new one is started. The new handle is unused, and it becomes the live one. |
| Http.Boot | app/http.ts:68-72 | At start-up no engine exists, so exactly one is started. |
| Http.RouteKeepsConsistent | app/http.ts:46-66 | A request keeps the server's handle equal to the set of engines started and not yet closed. |
| Http.OneLiveEngine | app/http.ts:20-66 | After any sequence of requests, at most one engine is live, and it is the one the server holds. |
| Http.ResetKeepsConsistent | app/http.ts:57-66 | A reset closes the running engine before starting the next, so afterwards the handle is again the one live engine. |
| Http.BootConsistent | app/http.ts:68-72 | After start-up the one live engine is the server's. |

## Left out

- WebSocket transport: messages are never serialised or actually sent. Sends appear only as a returned outbox. A send that fails is not modelled.
- What happens to the process after a TypeError escapes a handler is not modelled. The traces keep the map as it was when the error was raised.
- The engine facade's `close` (src/index.ts:191-193) only closes the listening socket, so it is not modelled.
- Malformed but decodable payloads are not modelled; reading a missing field would raise. In particular, the client's own play message `{ id, playerId, position }` (client/client.ts:201-205) has no `play` field, so src/index.ts:33 would raise on every such play that names a known session. Like the `join` mismatch, this is outside what `Inbound` can express.
- Engine.OnPlay: the position is an integer, but the engine accepts any JSON value and compares with `===` (src/index.ts:44), so `"4"` and `4` would be distinct claims on one cell. Only integer positions are modelled.
- Engine.OnPlay: a `play.player` other than 'a' or 'b' never equals the turn and is ignored at src/index.ts:33. `PlayMsg` carries a `Player`, so such a play is not expressible.
- Setting `turn` through the `Partial` of app/types.ts is not modelled, because `turn` is a getter there: `Object.assign` would raise a TypeError on it, so `new GameState(json)` of a whole JSON form would raise. `AppTypes.FromJson` is therefore the inverse projection of the JSON fields, not that constructor call. Extra properties copied by `Object.assign` are not modelled either.
- The DOM is not modelled: the reversed board markup (client/client.ts:44-59), the session-list rendering, click handling, `fetch` and `reset`. The board's cells are indexed by position instead of by markup order.
- `Path.join` and `FS` are not modelled. File existence is an input predicate, and the index page and static files are only named by the response.
- The final engine `app/socket.ts` is not part of this model: win detection, session summaries and `requestnew` handling. The `winner` field is carried, but nothing here sets it.
- After a listener error, `createServer` (src/index.ts:176-184) builds a socket with no `connection` listener, which only `start` attaches (src/index.ts:188), so the source serves no new connection afterwards. Traces here still allow messages from any connection after `ListenerError`; that admits more traces than the source, so the trace invariants remain sound.
- Concurrency and locking are not modelled: the code runs single-threaded callbacks.
- AppTypes.MovesBounded: the five-move bound is the TypeScript tuple type, so it is encoded in the Dafny type `MoveArray` rather than enforced by an operation.

=== FILE: app_types.dfy ===
/**
 * The game state shared by the newer server and the browser client (app/types.ts).
 * The player to move is not stored: it is derived from the lengths of the two move lists.
 */
module AppTypes {
  import opened Common

  /** `GameMoveArray` is a tuple of at most five optional numbers. */
  const MaxMoves := 5

  type MoveArray = s: seq<int> | |s| <= MaxMoves

  datatype Moves = Moves(playerA: MoveArray, playerB: MoveArray)

  /** Display labels of the two seats. */
  datatype Labels = Labels(playerA: string, playerB: string)

  datatype GameState = GameState(id: Option<string>, players: Labels, winner: Option<Player>, moves: Moves) {

    /** The `turn` getter. */
    function Turn(): (p: Player)
      ensures p == B <==> |moves.playerB| < |moves.playerA|
    {
      if |moves.playerA| == 0 then A
      else if |moves.playerB| < |moves.playerA| then B
      else A
    }
  }

  /** `toJSON`: the object handed to the serialiser, with the getter's turn as a field. */
  function ToJson(s: GameState): (j: StateJson)
    ensures j.turn == B <==> |s.moves.playerB| < |s.moves.playerA|
    ensures FromJson(j) == s
  {
    StateJson(s.id, s.winner, s.Turn(), s.moves, s.players)
  }

  /** What a client receives: exactly the fields id, winner, turn, moves and players. */
  datatype StateJson = StateJson(id: Option<string>, winner: Option<Player>, turn: Player, moves: Moves, players: Labels)

  /**
   * The constructor's argument, a `Partial<GameState>`: a `None` field is a key the caller
   * left out, and `winner: Some(None)` is an explicit `null`.
   */
  datatype Partial = Partial(id: Option<string>, players: Option<Labels>, winner: Option<Option<Player>>, moves: Option<Moves>)

  const NoFields := Partial(None, None, None, None)

  /** `new GameState(p)`: the field defaults, then `Object.assign(this, p)`. */
  function New(p: Partial): (s: GameState)
    ensures s.id == p.id
    ensures s.players == p.players.GetOr(Labels("", ""))
    ensures s.winner == p.winner.GetOr(None)
    ensures s.moves == p.moves.GetOr(Moves([], []))
  {
    GameState(
      p.id,
      p.players.GetOr(Labels("", "")),
      p.winner.GetOr(None),
      p.moves.GetOr(Moves([], [])))
  }

  /**
   * The inverse projection of the JSON form: the state whose id, players, winner and moves are
   * the JSON's, with `turn` dropped. It is not `new GameState(json)` applied to the whole
   * object: there `Object.assign` would write `turn` to a getter-only accessor and raise a
   * TypeError.
   */
  function FromJson(j: StateJson): GameState {
    New(Partial(j.id, Some(j.players), Some(j.winner), Some(j.moves)))
  }

  /** A state constructed with no overrides: empty labels, no winner, no moves, and A to move. */
  lemma FreshState()
    ensures New(NoFields).players == Labels("", "")
    ensures New(NoFields).winner == None
    ensures New(NoFields).moves == Moves([], [])
    ensures New(NoFields).Turn() == A
  {
  }

  /** A moves first and moves whenever it has made no move. */
  lemma TurnWithoutMovesOfA(s: GameState)
    requires |s.moves.playerA| == 0
    ensures s.Turn() == A
  {
  }

  /**
   * The explicit empty-list test of the getter is subsumed by the length comparison:
   * it is B's turn exactly when B has made fewer moves than A.
   */
  lemma TurnIsBIffBBehind(s: GameState)
    ensures s.Turn() == B <==> |s.moves.playerB| < |s.moves.playerA|
    ensures s.Turn() == A <==> |s.moves.playerA| <= |s.moves.playerB|
  {
  }

  /** Move lists that were filled by strict alternation starting with A. */
  predicate Alternating(m: Moves) {
    |m.playerA| == |m.playerB| || |m.playerA| == |m.playerB| + 1
  }

  /** The seat to move after `n` alternating moves, when A opens. */
  function ByParity(n: nat): Player {
    if n % 2 == 0 then A else B
  }

  /** On alternating move lists the derived turn agrees with the parity of the move count. */
  lemma TurnMatchesParity(s: GameState)
    requires Alternating(s.moves)
    ensures s.Turn() == ByParity(|s.moves.playerA| + |s.moves.playerB|)
  {
  }

  /** Appends `position` to `p`'s list; the caller keeps it within the five-move bound. */
  function Record(m: Moves, p: Player, position: int): (r: Moves)
    requires (if p == A then |m.playerA| else |m.playerB|) < MaxMoves
    ensures p == A ==> r.playerA == m.playerA + [position] && r.playerB == m.playerB
    ensures p == B ==> r.playerB == m.playerB + [position] && r.playerA == m.playerA
  {
    if p == A then Moves(m.playerA + [position], m.playerB)
    else Moves(m.playerA, m.playerB + [position])
  }

  /**
   * Recording a move for the seat whose turn it is hands the turn to the other seat
   * and keeps the lists alternating: from equal counts a move by A makes it B's turn,
   * and from B one behind a move by B makes it A's turn.
   */
  lemma TurnAlternates(s: GameState, position: int)
    requires Alternating(s.moves)
    requires (if s.Turn() == A then |s.moves.playerA| else |s.moves.playerB|) < MaxMoves
    ensures Alternating(Record(s.moves, s.Turn(), position))
    ensures s.(moves := Record(s.moves, s.Turn(), position)).Turn() == s.Turn().Other()
  {
  }

  /** Whatever the history, neither seat's move list exceeds the tuple bound of five. */
  lemma MovesBounded(m: Moves)
    ensures |m.playerA| <= MaxMoves && |m.playerB| <= MaxMoves
  {
  }

  /** The JSON view carries the getter's turn and loses nothing of the state. */
  lemma JsonRoundTrip(s: GameState)
    ensures ToJson(s).turn == s.Turn()
    ensures FromJson(ToJson(s)) == s
    ensures ToJson(s).id == s.id && ToJson(s).winner == s.winner
    ensures ToJson(s).moves == s.moves && ToJson(s).players == s.players
  {
  }
}

=== FILE: client.dfy ===
/**
 * The browser client's decisions (client/client.ts) with the DOM, `localStorage` and the
 * socket stripped away: what it shows and which messages it sends.
 */
module Client {
  import opened Common
  import opened AppTypes

  /**
   * What the client holds: the last state pushed by the server (the JSON object as received),
   * whether it has a socket, and the `playerId` item of `localStorage` (`None` when unset).
   */
  datatype View = View(state: Option<StateJson>, connected: bool, stored: Option<string>)

  /** `getPlayerId`: the stored id, or '' when there is none. */
  function PlayerId(v: View): (id: string)
    ensures v.stored.Some? ==> id == v.stored.value
    ensures v.stored.None? ==> id == ""
  {
    v.stored.GetOr("")
  }

  /** `getCurrentPlayer`: the viewer is seat A when A's label is the viewer's id, else seat B. */
  function CurrentPlayer(st: StateJson, playerId: string): (p: Player)
    ensures p == A <==> st.players.playerA == playerId
  {
    if st.players.playerA == playerId then A else B
  }

  /** The scoreboard text of `updateBoard`. */
  function Scoreboard(st: StateJson, viewer: Player): (text: string)
    ensures text == "" <==> st.winner.None?
    ensures text == "You win!" <==> st.winner == Some(viewer)
  {
    match st.winner
    case None => ""
    case Some(w) => if w == viewer then "You win!" else "You lose!"
  }

  /** The `data-state` attribute of a cell: 'tic', 'tac' or 'toe'. */
  datatype CellState = Tic | Tac | Toe

  /**
   * The cell state of `position` as `updateBoard` computes it: the viewer's and the opponent's
   * lists are picked by seat, then `tac` and `toe` are read back from them, `toe` last.
   */
  function CellOf(st: StateJson, viewer: Player, position: int): (c: CellState)
    ensures c == Toe <==> position in st.moves.playerB
    ensures c == Tac <==> position in st.moves.playerA && position !in st.moves.playerB
  {
    var isPlayerA := viewer == A;
    var player := if isPlayerA then st.moves.playerA else st.moves.playerB;
    var opponent := if isPlayerA then st.moves.playerB else st.moves.playerA;
    var tac := if isPlayerA then !Absent(player, position) else !Absent(opponent, position);
    var toe := if isPlayerA then !Absent(opponent, position) else !Absent(player, position);
    if toe then Toe else if tac then Tac else Tic
  }

  /** Everything `updateBoard` writes into the page; cells are indexed by board position. */
  datatype Board = Board(scoreboard: string, opacity: string, player: Player, turn: Player, cells: seq<CellState>)

  /** `updateBoard`: nothing is drawn before the first state arrives. */
  function Render(v: View): (b: Option<Board>)
    ensures b.None? <==> v.state.None?
    ensures b.Some? ==> b.value.player == CurrentPlayer(v.state.value, PlayerId(v))
    ensures b.Some? ==> b.value.turn == v.state.value.turn
    ensures b.Some? ==> b.value.scoreboard == Scoreboard(v.state.value, b.value.player)
    ensures b.Some? ==> (b.value.opacity == "1" <==> v.state.value.winner.Some?)
    ensures b.Some? ==> |b.value.cells| == 9
    ensures b.Some? ==> forall p :: 0 <= p < 9 ==>
      (b.value.cells[p] == Toe <==> !Absent(v.state.value.moves.playerB, p))
    ensures b.Some? ==> forall p :: 0 <= p < 9 ==>
      (b.value.cells[p] == Tac <==> !Absent(v.state.value.moves.playerA, p) && Absent(v.state.value.moves.playerB, p))
  {
    match v.state
    case None => None
    case Some(st) =>
      var viewer := CurrentPlayer(st, PlayerId(v));
      CellsIgnoreViewer(st, viewer);
      Some(Board(
        Scoreboard(st, viewer),
        if st.winner.Some? then "1" else "0",
        viewer,
        st.turn,
        seq(9, p => CellOf(st, viewer, p))))
  }

  /** The viewer is A exactly when A's label is the viewer's id. */
  lemma ViewerIsAIff(st: StateJson, playerId: string)
    ensures CurrentPlayer(st, playerId) == A <==> st.players.playerA == playerId
    ensures CurrentPlayer(st, playerId) == B <==> st.players.playerA != playerId
  {
  }

  /**
   * When a game is won, the two seats read opposite texts: one of them 'You win!', the other
   * 'You lose!'; before that, both read nothing.
   */
  lemma ScoreboardsAreOpposite(st: StateJson)
    ensures st.winner.None? ==> Scoreboard(st, A) == "" && Scoreboard(st, B) == ""
    ensures st.winner.Some? ==> Scoreboard(st, st.winner.value) == "You win!"
    ensures st.winner.Some? ==> Scoreboard(st, st.winner.value.Other()) == "You lose!"
  {
  }

  /**
   * Whichever seat is viewing, a cell is 'toe' exactly when B holds it, 'tac' exactly when A
   * holds it and B does not, and 'tic' otherwise.
   */
  lemma CellsIgnoreViewer(st: StateJson, viewer: Player)
    ensures forall p :: CellOf(st, viewer, p) == CellOf(st, viewer.Other(), p)
    ensures forall p :: CellOf(st, viewer, p) == Toe <==> !Absent(st.moves.playerB, p)
    ensures forall p :: CellOf(st, viewer, p) == Tac <==> !Absent(st.moves.playerA, p) && Absent(st.moves.playerB, p)
    ensures forall p :: CellOf(st, viewer, p) == Tic <==> Absent(st.moves.playerA, p) && Absent(st.moves.playerB, p)
  {
  }

  /** A position claimed by both seats shows as 'toe': B's claim overrides A's. */
  lemma ToeOverridesTac(st: StateJson, viewer: Player, p: int)
    requires !Absent(st.moves.playerA, p) && !Absent(st.moves.playerB, p)
    ensures CellOf(st, viewer, p) == Toe
  {
  }

  /** An outbound message of the client; `Play`'s `sender` is the payload's `playerId`. */
  datatype Outbound =
    | RequestJoin(playerId: Option<string>, sessionId: Option<string>)
    | RequestNew(playerId: Option<string>)
    | Play(id: Option<string>, sender: string, position: int)

  /**
   * `join(sessionId)`: 'new' asks for a new session; an empty id means the session currently
   * held (or '' when none is held); any other id is sent as given. Nothing is sent without a socket.
   */
  function Join(v: View, sessionId: string): (m: Option<Outbound>)
    ensures !v.connected ==> m.None?
    ensures v.connected && sessionId == "new" ==> m == Some(RequestNew(v.stored))
    ensures v.connected && sessionId != "new" ==> m.Some? && m.value.RequestJoin? && m.value.playerId == v.stored
    ensures v.connected && sessionId == "" ==>
      m.value.sessionId == (if v.state.Some? then v.state.value.id else Some(""))
    ensures v.connected && sessionId != "" && sessionId != "new" ==> m.value.sessionId == Some(sessionId)
  {
    if !v.connected then None
    else if sessionId == "new" then Some(RequestNew(v.stored))
    else
      var sid := if sessionId != "" then Some(sessionId)
                 else if v.state.Some? then v.state.value.id
                 else Some("");
      Some(RequestJoin(v.stored, sid))
  }

  /** Joining with an empty id is shorthand for rejoining the session currently held. */
  lemma EmptyJoinRejoinsCurrent(v: View)
    requires v.state.Some? && v.state.value.id.Some?
    requires v.state.value.id.value != "" && v.state.value.id.value != "new"
    ensures Join(v, "") == Join(v, v.state.value.id.value)
  {
  }

  /** `play(position)`: the held session's id, the viewer's id and the position; nothing without a socket or a state. */
  function PlayMove(v: View, position: int): (m: Option<Outbound>)
    ensures m.Some? <==> v.connected && v.state.Some?
    ensures m.Some? ==> m.value == Play(v.state.value.id, PlayerId(v), position)
  {
    if !v.connected || v.state.None? then None
    else Some(Play(v.state.value.id, PlayerId(v), position))
  }

  /** The id a play carries is the one that decides which seat the board is drawn for. */
  lemma PlayActsAsRenderedSeat(v: View, position: int)
    requires PlayMove(v, position).Some?
    ensures CurrentPlayer(v.state.value, PlayMove(v, position).value.sender) == Render(v).value.player
  {
  }

  /** A decoded inbound message; one that does not decode is `None`. */
  datatype Incoming = RegisterIn(id: string) | SessionListIn | UpdateIn(state: StateJson) | OtherIn(kind: string)

  /** The client after a message: its new view, what it sent, and what it drew. */
  datatype Reaction = Reaction(view: View, sent: seq<Outbound>, drawn: Option<Board>)

  /**
   * `onmessage`: an undecodable message does nothing at all; `register` stores the id and asks
   * to join any session; `update` replaces the held state; every decoded message redraws.
   */
  function OnMessage(v: View, msg: Option<Incoming>): (r: Reaction)
    ensures msg.None? ==> r == Reaction(v, [], None)
    ensures msg.Some? ==> r.drawn == Render(r.view)
    ensures msg.Some? && msg.value.RegisterIn? ==>
      r.view == v.(stored := Some(msg.value.id)) && r.sent == [RequestJoin(Some(msg.value.id), Some(""))]
    ensures msg.Some? && msg.value.UpdateIn? ==> r.view == v.(state := Some(msg.value.state)) && r.sent == []
    ensures msg.Some? && (msg.value.SessionListIn? || msg.value.OtherIn?) ==> r.view == v && r.sent == []
  {
    match msg
    case None => Reaction(v, [], None)
    case Some(m) =>
      var (v', sent) := match m
        case RegisterIn(id) => (v.(stored := Some(id)), [RequestJoin(Some(id), Some(""))])
        case SessionListIn => (v, [])
        case UpdateIn(st) => (v.(state := Some(st)), [])
        case OtherIn(_) => (v, []);
      Reaction(v', sent, Render(v'))
  }

  /** After `register`, later plays carry the registered id. */
  lemma RegisteredIdIsUsed(v: View, id: string, position: int)
    requires v.connected && v.state.Some?
    ensures PlayMove(OnMessage(v, Some(RegisterIn(id))).view, position).value.sender == id
  {
  }

  /** After an update the board shows the pushed state's turn and the server's derived turn. */
  lemma UpdateShowsServerTurn(v: View, s: GameState)
    ensures OnMessage(v, Some(UpdateIn(ToJson(s)))).drawn.value.turn == s.Turn()
  {
  }
}

=== FILE: common.dfy ===
/** Vocabulary shared by the server, the shared type module and the browser client. */
module Common {

  /** `None` stands for JavaScript's `null` or a missing property. */
  datatype Option<+T> = None | Some(value: T) {
    function GetOr(default: T): T {
      match this
      case Some(v) => v
      case None => default
    }
  }

  /** The two seats of a match; the source encodes them as the strings 'a' and 'b'. */
  datatype Player = A | B {
    /** The seat that moves after this one. */
    function Other(): (p: Player)
      ensures p != this
    {
      if A? then B else A
    }
  }

  /** True when `x` occurs nowhere in `s` (JavaScript's `indexOf(x) === -1`). */
  predicate Absent<T(==)>(s: seq<T>, x: T) {
    forall i :: 0 <= i < |s| ==> s[i] != x
  }

  /** No position occurs twice in a move list. */
  predicate NoDuplicates<T(==)>(s: seq<T>) {
    forall i, j :: 0 <= i < j < |s| ==> s[i] != s[j]
  }

  /** No position occurs in both move lists. */
  predicate Disjoint<T(==)>(a: seq<T>, b: seq<T>) {
    forall i, j :: 0 <= i < |a| && 0 <= j < |b| ==> a[i] != b[j]
  }
}

=== FILE: engine.dfy ===
/**
 * The earlier WebSocket engine (src/index.ts), modelled as written.
 *
 * The session map is a sequence of (id, session) pairs in insertion order. A seat of a
 * session is an optional slot object: the code reads `session.playerA.client` and
 * `session.playerA.playerId`, but `createSession` stores only `{ state }`, so a slot can be
 * missing. Reading a field of a missing slot raises a TypeError; such an outcome is `Threw`,
 * carrying the map as it had been mutated, and the messages sent, up to that point.
 */
module Engine {
  import opened Common
  import opened SrcTypes

  /** An open WebSocket, compared by object identity. */
  type Conn = nat

  /** One seat: the identity it belongs to and the live connection, if any. */
  datatype Slot = Slot(playerId: Option<string>, client: Option<Conn>)

  datatype Session = Session(playerA: Option<Slot>, playerB: Option<Slot>, state: GameState) {
    /** Both slot objects exist, so reading their fields cannot raise. */
    predicate Slotted() {
      playerA.Some? && playerB.Some?
    }
  }

  /** The `sessions` map in insertion order. */
  type Registry = seq<(string, Session)>

  predicate KeysUnique(reg: Registry) {
    forall i, j :: 0 <= i < j < |reg| ==> reg[i].0 != reg[j].0
  }

  /**
   * A message the engine sends. `onJoin`'s seating branch would answer with a
   * `PlayerJoinAction`, but src/actions.ts exports no such class, so that reply is never built.
   */
  datatype Reply = Registered(id: string) | Update(state: GameState)

  datatype Send = Send(to: Conn, reply: Reply)

  /**
   * The end of a handler: it returned `value`, or it raised a TypeError after sending the
   * messages in `sent`.
   */
  datatype Outcome<T> = Done(reg: Registry, value: T) | Threw(reg: Registry, sent: seq<Send>)

  // ---------------------------------------------------------------- the map

  /** `sessions.get(key)`: the position of `key`, if present. */
  function Find(reg: Registry, key: string): (r: Option<nat>)
    ensures r.Some? ==> r.value < |reg| && reg[r.value].0 == key
    ensures r.Some? ==> forall j :: 0 <= j < r.value ==> reg[j].0 != key
    ensures r.None? <==> forall j :: 0 <= j < |reg| ==> reg[j].0 != key
    decreases |reg|
  {
    if |reg| == 0 then None
    else if reg[0].0 == key then Some(0)
    else match Find(reg[1..], key)
      case None => None
      case Some(k) => Some(k + 1)
  }

  /** `sessions.set(key, s)`: replaces the entry in place when `key` is present, else appends. */
  function Put(reg: Registry, key: string, s: Session): (r: Registry)
    ensures Find(reg, key).None? ==> r == reg + [(key, s)]
    ensures Find(reg, key).Some? ==> |r| == |reg|
    ensures Find(r, key).Some? && r[Find(r, key).value].1 == s
    ensures forall j :: 0 <= j < |reg| && reg[j].0 != key ==> r[j] == reg[j]
    ensures forall j :: 0 <= j < |r| ==> r[j].0 == key || (j < |reg| && r[j] == reg[j])
    ensures KeysUnique(reg) ==> KeysUnique(r)
  {
    match Find(reg, key)
    case None =>
      var r := reg + [(key, s)];
      assert r[|reg|].0 == key;
      assert Find(r, key) == Some(|reg|) by {
        var f := Find(r, key);
        assert f.Some?;
        assert forall j :: 0 <= j < |reg| ==> r[j].0 != key;
      }
      r
    case Some(i) =>
      var r := reg[i := (key, s)];
      assert Find(r, key) == Some(i) by {
        assert forall j :: 0 <= j < i ==> r[j].0 != key;
        assert r[i].0 == key;
      }
      r
  }

  // ---------------------------------------------------------------- matchmaking

  /** `createSession`: a session under the id `newId` whose only field is its state. */
  function CreateSession(reg: Registry, newId: string): (r: (Registry, nat))
    ensures r.1 < |r.0| && r.0[r.1].0 == newId && Find(r.0, newId) == Some(r.1)
    ensures r.0[r.1].1 == Session(None, None, GameState(Some(newId), A, Moves([], [])))
    ensures Find(reg, newId).None? ==> r.0 == reg + [r.0[r.1]] && r.1 == |reg|
    ensures KeysUnique(reg) ==> KeysUnique(r.0)
  {
    FreshState(newId);
    var reg' := Put(reg, newId, Session(None, None, New(Partial(Some(newId), None, None))));
    (reg', Find(reg', newId).value)
  }

  /** The first session, in insertion order, whose `playerB` is missing. */
  function FirstOpen(reg: Registry): (r: Option<nat>)
    ensures r.Some? ==> r.value < |reg| && reg[r.value].1.playerB.None?
    ensures r.Some? ==> forall j :: 0 <= j < r.value ==> reg[j].1.playerB.Some?
    ensures r.None? <==> forall j :: 0 <= j < |reg| ==> reg[j].1.playerB.Some?
    decreases |reg|
  {
    if |reg| == 0 then None
    else if reg[0].1.playerB.None? then Some(0)
    else match FirstOpen(reg[1..])
      case None => None
      case Some(k) => Some(k + 1)
  }

  /**
   * `findAvailableSession`: the first session lacking `playerB`, in insertion order; when
   * every session has one, a new session registered under the id `newId`.
   */
  function FindAvailable(reg: Registry, newId: string): (r: (Registry, nat))
    ensures r.1 < |r.0| && r.0[r.1].1.playerB.None?
    ensures (exists j :: 0 <= j < |reg| && reg[j].1.playerB.None?) ==>
      r.0 == reg && forall j :: 0 <= j < r.1 ==> reg[j].1.playerB.Some?
    ensures (forall j :: 0 <= j < |reg| ==> reg[j].1.playerB.Some?) ==>
      r.0[r.1] == (newId, Session(None, None, GameState(Some(newId), A, Moves([], []))))
    ensures (forall j :: 0 <= j < |reg| ==> reg[j].1.playerB.Some?) && Find(reg, newId).None? ==>
      r.0 == reg + [r.0[r.1]]
    ensures KeysUnique(reg) ==> KeysUnique(r.0)
  {
    match FirstOpen(reg)
    case Some(i) => (reg, i)
    case None => CreateSession(reg, newId)
  }

  /** How the search of `findPreviousSession` ended. */
  datatype Search = Found(index: nat) | Missing | Fault

  /** A slot of `s` that exists is bound to `pid`. */
  predicate Bound(s: Session, pid: string) {
    || (s.playerA.Some? && s.playerA.value.playerId == Some(pid))
    || (s.playerB.Some? && s.playerB.value.playerId == Some(pid))
  }

  /** The search callback raises on `s`: slot A is missing, or it does not match and slot B is missing. */
  predicate FaultsAt(s: Session, pid: string) {
    s.playerA.None? || (s.playerA.value.playerId != Some(pid) && s.playerB.None?)
  }

  /** The search callback returns false on `s` without raising. */
  predicate Passes(s: Session, pid: string) {
    s.Slotted() && !Bound(s, pid)
  }

  /**
   * `findPreviousSession`: the first session with a slot bound to `pid`. The callback reads
   * `playerA.playerId` and then, unless that matched, `playerB.playerId`, so a missing slot
   * met on the way raises.
   */
  function FindPrevious(reg: Registry, pid: string): (r: Search)
    ensures r.Found? ==> r.index < |reg| && reg[r.index].1.playerA.Some? && Bound(reg[r.index].1, pid)
    ensures r.Found? ==> forall j :: 0 <= j < r.index ==> Passes(reg[j].1, pid)
    ensures r.Missing? <==> forall j :: 0 <= j < |reg| ==> Passes(reg[j].1, pid)
    ensures r.Fault? ==> exists k :: 0 <= k < |reg| && FaultsAt(reg[k].1, pid) && forall j :: 0 <= j < k ==> Passes(reg[j].1, pid)
    decreases |reg|
  {
    if |reg| == 0 then Missing
    else
      var s := reg[0].1;
      if s.playerA.None? then
        assert FaultsAt(reg[0].1, pid);
        Fault
      else if s.playerA.value.playerId == Some(pid) then Found(0)
      else if s.playerB.None? then
        assert FaultsAt(reg[0].1, pid);
        Fault
      else if s.playerB.value.playerId == Some(pid) then Found(0)
      else match FindPrevious(reg[1..], pid)
        case Found(k) => Found(k + 1)
        case Missing => Missing
        case Fault =>
          var k :| 0 <= k < |reg| - 1 && FaultsAt(reg[1..][k].1, pid) && forall j :: 0 <= j < k ==> Passes(reg[1..][j].1, pid);
          assert FaultsAt(reg[k + 1].1, pid);
          assert forall j :: 0 <= j < k + 1 ==> Passes(reg[j].1, pid) by {
            forall j | 0 <= j < k + 1 ensures Passes(reg[j].1, pid) {
              if j > 0 { assert reg[j] == reg[1..][j - 1]; }
            }
          }
          Fault
  }

  /** Attaches `conn` to session `i`'s slot A, when it exists. */
  function AttachA(reg: Registry, i: nat, conn: Conn): Registry
    requires i < |reg| && reg[i].1.playerA.Some?
  {
    var s := reg[i].1;
    reg[i := (reg[i].0, s.(playerA := Some(s.playerA.value.(client := Some(conn)))))]
  }

  function AttachB(reg: Registry, i: nat, conn: Conn): Registry
    requires i < |reg| && reg[i].1.playerB.Some?
  {
    var s := reg[i].1;
    reg[i := (reg[i].0, s.(playerB := Some(s.playerB.value.(client := Some(conn)))))]
  }

  /**
   * The seating of `onJoin` once a session was chosen: slot B when slot A already holds a
   * connection, slot A otherwise. It never returns: reading a missing slot raises, and after
   * seating, `new PlayerJoinAction(..)` raises because the class is not exported, leaving the
   * connection attached and nothing sent.
   */
  function Seat(reg: Registry, i: nat, conn: Conn): (o: Outcome<Reply>)
    requires i < |reg|
    ensures o.Threw? && o.sent == []
    ensures reg[i].1.playerA.None? || (reg[i].1.playerA.value.client.Some? && reg[i].1.playerB.None?) ==>
      o.reg == reg
    ensures reg[i].1.playerA.Some? && reg[i].1.playerA.value.client.None? ==>
      o.reg == AttachA(reg, i, conn) && o.reg[i].1.playerA.value.client == Some(conn)
    ensures reg[i].1.playerA.Some? && reg[i].1.playerA.value.client.Some? && reg[i].1.playerB.Some? ==>
      o.reg == AttachB(reg, i, conn) && o.reg[i].1.playerB.value.client == Some(conn)
  {
    var s := reg[i].1;
    if s.playerA.None? then Threw(reg, [])
    else if s.playerA.value.client.Some? then
      if s.playerB.None? then Threw(reg, [])
      else Threw(AttachB(reg, i, conn), [])
    else Threw(AttachA(reg, i, conn), [])
  }

  /**
   * `onJoin`: re-attach the connection to the session already bound to `pid`, otherwise
   * matchmake and seat it.
   */
  function OnJoin(reg: Registry, conn: Conn, pid: string, newId: string): (o: Outcome<Reply>)
    ensures FindPrevious(reg, pid).Fault? ==> o == Threw(reg, [])
    ensures FindPrevious(reg, pid).Found? ==>
      var i := FindPrevious(reg, pid).index;
      && o.Done?
      && o.value == Update(reg[i].1.state)
      && (reg[i].1.playerA.value.playerId == Some(pid) ==> o.reg == AttachA(reg, i, conn))
      && (reg[i].1.playerA.value.playerId != Some(pid) ==> o.reg == AttachB(reg, i, conn))
    ensures FindPrevious(reg, pid).Missing? ==>
      var (reg1, i) := FindAvailable(reg, newId);
      o == Seat(reg1, i, conn)
    ensures |reg| <= |o.reg| <= |reg| + 1 && forall j :: 0 <= j < |reg| ==> o.reg[j].0 == reg[j].0
  {
    match FindPrevious(reg, pid)
    case Fault => Threw(reg, [])
    case Found(i) =>
      var s := reg[i].1;
      if s.playerA.value.playerId == Some(pid) then Done(AttachA(reg, i, conn), Update(s.state))
      else Done(AttachB(reg, i, conn), Update(s.state))
    case Missing =>
      var (reg1, i) := FindAvailable(reg, newId);
      Seat(reg1, i, conn)
  }

  // ---------------------------------------------------------------- plays

  /** The messages a handler sent, whether it returned or raised. */
  function Outbox(o: Outcome<seq<Send>>): seq<Send> {
    if o.Done? then o.value else o.sent
  }

  /** Some message in `out` goes to `c`. */
  predicate Receives(out: seq<Send>, c: Conn) {
    exists k :: 0 <= k < |out| && out[k].to == c
  }

  /**
   * The update pushed after an accepted play: to A's live connection, then to B's. Reading
   * a missing slot raises, after whatever was already sent.
   */
  function Broadcast(reg: Registry, s: Session): (o: Outcome<seq<Send>>)
    ensures o.reg == reg
    ensures o.Done? <==> s.Slotted()
    ensures forall k :: 0 <= k < |Outbox(o)| ==> Outbox(o)[k].reply == Update(s.state)
    ensures s.playerA.None? ==> Outbox(o) == []
    ensures s.playerA.Some? ==> forall c: Conn :: Receives(Outbox(o), c) <==>
      (s.playerA.value.client == Some(c) || (s.playerB.Some? && s.playerB.value.client == Some(c)))
    ensures s.playerA.Some? && s.playerA.value.client.Some? ==>
      |Outbox(o)| > 0 && Outbox(o)[0].to == s.playerA.value.client.value
    ensures |Outbox(o)| ==
      (if s.playerA.Some? && s.playerA.value.client.Some? then 1 else 0) +
      (if s.Slotted() && s.playerB.value.client.Some? then 1 else 0)
  {
    if s.playerA.None? then Threw(reg, [])
    else
      var toA := if s.playerA.value.client.Some? then [Send(s.playerA.value.client.value, Update(s.state))] else [];
      if s.playerB.None? then
        assert forall c: Conn :: Receives(toA, c) <==> s.playerA.value.client == Some(c) by {
          forall c: Conn | s.playerA.value.client == Some(c) ensures Receives(toA, c) {
            assert toA[0].to == c;
          }
        }
        Threw(reg, toA)
      else
        var toB := if s.playerB.value.client.Some? then [Send(s.playerB.value.client.value, Update(s.state))] else [];
        var out := toA + toB;
        assert forall c: Conn :: Receives(out, c) <==>
          (s.playerA.value.client == Some(c) || s.playerB.value.client == Some(c)) by {
          forall c: Conn | Receives(out, c)
            ensures s.playerA.value.client == Some(c) || s.playerB.value.client == Some(c) {
            var k :| 0 <= k < |out| && out[k].to == c;
            if k < |toA| { assert out[k] == toA[k]; } else { assert out[k] == toB[k - |toA|]; }
          }
          forall c: Conn | s.playerA.value.client == Some(c) || s.playerB.value.client == Some(c)
            ensures Receives(out, c) {
            if s.playerA.value.client == Some(c) { assert out[0].to == c; }
            else { assert out[|out| - 1].to == c; }
          }
        }
        Done(reg, out)
  }

  /**
   * `onPlay`: a play naming session `id`, claiming to be made by `player`. The turn is
   * flipped before the occupancy check, so a play onto a taken cell still hands the turn over.
   */
  function OnPlay(reg: Registry, id: string, player: Player, position: int): (o: Outcome<seq<Send>>)
    ensures |o.reg| == |reg|
    ensures forall j :: 0 <= j < |reg| && reg[j].0 != id ==> o.reg[j] == reg[j]
    ensures Find(reg, id).None? ==> o == Done(reg, [])
    ensures Find(reg, id).Some? && reg[Find(reg, id).value].1.state.turn != player ==> o == Done(reg, [])
    ensures Find(reg, id).Some? && reg[Find(reg, id).value].1.state.turn == player ==>
      var i := Find(reg, id).value;
      var before := reg[i].1;
      var after := o.reg[i].1;
      && o.reg[i].0 == id
      && after.playerA == before.playerA && after.playerB == before.playerB
      && after.state.id == before.state.id
      && after.state.turn == player.Other()
      && (before.state.moves.Taken(position) ==> after.state.moves == before.state.moves && o == Done(o.reg, []))
      && (!before.state.moves.Taken(position) ==>
            && after.state.moves.Of(player) == before.state.moves.Of(player) + [position]
            && after.state.moves.Of(player.Other()) == before.state.moves.Of(player.Other())
            && (o.Done? <==> before.Slotted())
            && o == Broadcast(o.reg, after))
  {
    match Find(reg, id)
    case None => Done(reg, [])
    case Some(i) =>
      var s := reg[i].1;
      if s.state.turn != player then Done(reg, [])
      else
        var flipped := s.state.(turn := player.Other());
        if s.state.moves.Taken(position) then Done(reg[i := (id, s.(state := flipped))], [])
        else
          var s' := s.(state := flipped.(moves := s.state.moves.Push(player, position)));
          Broadcast(reg[i := (id, s')], s')
  }

  // ---------------------------------------------------------------- detaching connections

  /** Which slots a `forEach` over the sessions detaches. */
  datatype Match = Identity(id: string) | Connection(conn: Conn)

  predicate Hits(slot: Slot, m: Match) {
    match m
    case Identity(id) => slot.playerId == Some(id)
    case Connection(c) => slot.client == Some(c)
  }

  function Release(slot: Slot, m: Match): Slot {
    if Hits(slot, m) then slot.(client := None) else slot
  }

  /** `after` is `before` with its live connection cleared exactly when `m` hits it. */
  predicate Released(before: Slot, after: Slot, m: Match) {
    && after.playerId == before.playerId
    && after.client == (if Hits(before, m) then None else before.client)
  }

  /** Session `after` is `before` with every hit slot detached; its state is untouched. */
  predicate SessionReleased(before: Session, after: Session, m: Match) {
    && before.Slotted() && after.Slotted()
    && after.state == before.state
    && Released(before.playerA.value, after.playerA.value, m)
    && Released(before.playerB.value, after.playerB.value, m)
  }

  /** Every slot object of `before` is still present in `after`, bound to the same identity. */
  predicate KeepsIdentities(before: Session, after: Session) {
    && after.playerA.Some? == before.playerA.Some?
    && after.playerB.Some? == before.playerB.Some?
    && (before.playerA.Some? ==> after.playerA.value.playerId == before.playerA.value.playerId)
    && (before.playerB.Some? ==> after.playerB.value.playerId == before.playerB.value.playerId)
  }

  /**
   * The `forEach` of `onRegister` and of the close handler: each session's slot A and then
   * slot B is tested and detached; the first missing slot raises and ends the loop.
   */
  function ClearSlots(reg: Registry, m: Match): (o: Outcome<()>)
    ensures |o.reg| == |reg|
    ensures forall j :: 0 <= j < |reg| ==> o.reg[j].0 == reg[j].0 && o.reg[j].1.state == reg[j].1.state
    ensures o.Done? <==> forall j :: 0 <= j < |reg| ==> reg[j].1.Slotted()
    ensures o.Done? ==> forall j :: 0 <= j < |reg| ==> SessionReleased(reg[j].1, o.reg[j].1, m)
    ensures o.Threw? ==> o.sent == []
    decreases |reg|
  {
    if |reg| == 0 then Done([], ())
    else
      var (key, s) := reg[0];
      if s.playerA.None? then Threw(reg, [])
      else
        var a := Release(s.playerA.value, m);
        if s.playerB.None? then
          Threw([(key, s.(playerA := Some(a)))] + reg[1..], [])
        else
          var s' := s.(playerA := Some(a), playerB := Some(Release(s.playerB.value, m)));
          match ClearSlots(reg[1..], m)
          case Done(rest, _) => Done([(key, s')] + rest, ())
          case Threw(rest, _) => Threw([(key, s')] + rest, [])
  }

  /**
   * `after` is what the loop left when it raised at session `k`: the sessions before `k`
   * detached, session `k` lacking a slot (its slot A detached if present), the rest untouched.
   */
  predicate ThrewAt(before: Registry, after: Registry, m: Match, k: nat) {
    && |after| == |before| && k < |before|
    && (forall j :: 0 <= j < k ==> SessionReleased(before[j].1, after[j].1, m))
    && !before[k].1.Slotted()
    && after[k].1.state == before[k].1.state
    && after[k].1.playerB == before[k].1.playerB
    && (before[k].1.playerA.None? ==> after[k].1.playerA.None?)
    && (before[k].1.playerA.Some? ==>
          after[k].1.playerA.Some? && Released(before[k].1.playerA.value, after[k].1.playerA.value, m))
    && (forall j :: k < j < |before| ==> after[j] == before[j])
  }

  /** Where the `forEach` raised, the sessions before it were detached and those after untouched. */
  lemma {:induction false} ClearSlotsThrewAt(reg: Registry, m: Match)
    requires ClearSlots(reg, m).Threw?
    ensures exists k :: 0 <= k < |reg| && ThrewAt(reg, ClearSlots(reg, m).reg, m, k)
    decreases |reg|
  {
    if !reg[0].1.Slotted() {
      ThrewAtFirst(reg, m);
    } else {
      var head := ClearSlotsHead(reg, m);
      var rest := ClearSlots(reg[1..], m).reg;
      ClearSlotsThrewAt(reg[1..], m);
      var k :| 0 <= k < |reg| - 1 && ThrewAt(reg[1..], rest, m, k);
      ThrewAtCons(reg[0], head, reg[1..], rest, m, k);
      assert reg == [reg[0]] + reg[1..];
    }
  }

  /** Past a session with both slots, the loop detaches it and carries on with the rest. */
  lemma ClearSlotsHead(reg: Registry, m: Match) returns (head: (string, Session))
    requires |reg| > 0 && reg[0].1.Slotted()
    ensures SessionReleased(reg[0].1, head.1, m)
    ensures ClearSlots(reg, m).reg == [head] + ClearSlots(reg[1..], m).reg
    ensures ClearSlots(reg, m).Threw? == ClearSlots(reg[1..], m).Threw?
  {
    var (key, s) := reg[0];
    head := (key, s.(playerA := Some(Release(s.playerA.value, m)), playerB := Some(Release(s.playerB.value, m))));
  }

  /** A session lacking a slot at the head stops the loop at once. */
  lemma ThrewAtFirst(reg: Registry, m: Match)
    requires |reg| > 0 && !reg[0].1.Slotted()
    ensures ThrewAt(reg, ClearSlots(reg, m).reg, m, 0)
  {
    var (key, s) := reg[0];
    if s.playerA.Some? {
      var after := [(key, s.(playerA := Some(Release(s.playerA.value, m))))] + reg[1..];
      assert ClearSlots(reg, m).reg == after;
      assert forall j :: 0 < j < |reg| ==> after[j] == reg[j];
    }
  }

  /** Prefixing a detached session shifts the raising point by one. */
  lemma ThrewAtCons(hb: (string, Session), ha: (string, Session), before: Registry, after: Registry, m: Match, k: nat)
    requires ThrewAt(before, after, m, k) && SessionReleased(hb.1, ha.1, m)
    ensures ThrewAt([hb] + before, [ha] + after, m, k + 1)
  {
    var b, a := [hb] + before, [ha] + after;
    assert forall j :: 0 < j < |b| ==> b[j] == before[j - 1] && a[j] == after[j - 1];
  }

  /** A detaching loop that raised at `k` kept every slot object and its identity. */
  lemma ThrewAtKeepsIdentities(before: Registry, after: Registry, m: Match, k: nat)
    requires ThrewAt(before, after, m, k)
    ensures forall j :: 0 <= j < |before| ==> KeepsIdentities(before[j].1, after[j].1)
  {
    forall j | 0 <= j < |before| ensures KeepsIdentities(before[j].1, after[j].1) {
      if j < k { assert SessionReleased(before[j].1, after[j].1, m); }
      else if k < j { assert after[j] == before[j]; }
    }
  }

  /** Whether the loop returns or raises, every slot object survives with its identity. */
  lemma ClearSlotsKeepsIdentities(reg: Registry, m: Match)
    ensures forall j :: 0 <= j < |reg| ==> KeepsIdentities(reg[j].1, ClearSlots(reg, m).reg[j].1)
  {
    var o := ClearSlots(reg, m);
    if o.Threw? {
      ClearSlotsThrewAt(reg, m);
      var k :| 0 <= k < |reg| && ThrewAt(reg, o.reg, m, k);
      ThrewAtKeepsIdentities(reg, o.reg, m, k);
    } else {
      forall j | 0 <= j < |reg| ensures KeepsIdentities(reg[j].1, o.reg[j].1) {
        assert SessionReleased(reg[j].1, o.reg[j].1, m);
      }
    }
  }

  /**
   * `onRegister`: a non-empty supplied id detaches every slot bound to it and is handed back;
   * without one (absent, null or empty) the id `newId` is handed out and nothing changes.
   */
  function OnRegister(reg: Registry, id: Option<string>, newId: string): (o: Outcome<string>)
    ensures (id.None? || id.value == "") ==> o == Done(reg, newId)
    ensures id.Some? && id.value != "" ==>
      && |o.reg| == |reg|
      && (forall j :: 0 <= j < |reg| ==> o.reg[j].0 == reg[j].0 && o.reg[j].1.state == reg[j].1.state)
      && (o.Done? <==> forall j :: 0 <= j < |reg| ==> reg[j].1.Slotted())
      && (o.Done? ==> o.value == id.value)
      && (o.Done? ==> forall j :: 0 <= j < |reg| ==> SessionReleased(reg[j].1, o.reg[j].1, Identity(id.value)))
      && (o.Threw? ==> exists k :: 0 <= k < |reg| && ThrewAt(reg, o.reg, Identity(id.value), k))
      && (forall j :: 0 <= j < |reg| ==> KeepsIdentities(reg[j].1, o.reg[j].1))
  {
    if id.Some? && id.value != "" then
      var cleared := ClearSlots(reg, Identity(id.value));
      ClearSlotsKeepsIdentities(reg, Identity(id.value));
      if cleared.Threw? then
        ClearSlotsThrewAt(reg, Identity(id.value));
        Threw(cleared.reg, [])
      else Done(cleared.reg, id.value)
    else Done(reg, newId)
  }

  /** The close handler: detaches every slot whose live connection is the closing one. */
  function OnClose(reg: Registry, conn: Conn): (o: Outcome<()>)
    ensures |o.reg| == |reg|
    ensures forall j :: 0 <= j < |reg| ==> o.reg[j].0 == reg[j].0 && o.reg[j].1.state == reg[j].1.state
    ensures o.Done? <==> forall j :: 0 <= j < |reg| ==> reg[j].1.Slotted()
    ensures o.Done? ==> forall j :: 0 <= j < |reg| ==> SessionReleased(reg[j].1, o.reg[j].1, Connection(conn))
    ensures o.Threw? ==> exists k :: 0 <= k < |reg| && ThrewAt(reg, o.reg, Connection(conn), k)
    ensures forall j :: 0 <= j < |reg| ==> KeepsIdentities(reg[j].1, o.reg[j].1)
  {
    var cleared := ClearSlots(reg, Connection(conn));
    ClearSlotsKeepsIdentities(reg, Connection(conn));
    if cleared.Threw? then
      ClearSlotsThrewAt(reg, Connection(conn));
      cleared
    else cleared
  }

  // ---------------------------------------------------------------- message dispatch

  /** A decoded inbound message; a message that does not decode is `None` at the dispatcher. */
  datatype Inbound =
    | RegisterMsg(id: Option<string>)
    | JoinMsg(playerId: Option<string>)
    | PlayMsg(sessionId: string, player: Player, position: int)
    | OtherMsg(kind: string)

  /** The message callback of `onClientConnect`: what the map becomes and what is sent to whom. */
  function Handle(reg: Registry, conn: Conn, msg: Option<Inbound>, newId: string): (o: Outcome<seq<Send>>)
    ensures msg.None? ==> o == Done(reg, [])
    ensures msg.Some? && msg.value.OtherMsg? ==> o == Done(reg, [])
    ensures msg.Some? && msg.value.JoinMsg? && (msg.value.playerId.None? || msg.value.playerId.value == "") ==>
      o == Done(reg, [])
    ensures msg.Some? && msg.value.RegisterMsg? && o.Done? ==>
      |o.value| == 1 && o.value[0].to == conn && o.value[0].reply.Registered?
    ensures msg.Some? && msg.value.JoinMsg? && o.Done? && o.value != [] ==>
      |o.value| == 1 && o.value[0].to == conn && !o.value[0].reply.Registered?
    ensures msg.Some? && msg.value.RegisterMsg? ==>
      var id := msg.value.id;
      && o.reg == OnRegister(reg, id, newId).reg
      && (o.Done? <==> OnRegister(reg, id, newId).Done?)
      && Outbox(o) == (if o.Done? then [Send(conn, Registered(if id.Some? && id.value != "" then id.value else newId))] else [])
    ensures msg.Some? && msg.value.JoinMsg? && msg.value.playerId.Some? && msg.value.playerId.value != "" ==>
      var j := OnJoin(reg, conn, msg.value.playerId.value, newId);
      && o.reg == j.reg
      && (o.Done? <==> j.Done?)
      && Outbox(o) == (if j.Done? then [Send(conn, j.value)] else [])
    ensures msg.Some? && msg.value.PlayMsg? ==>
      o == OnPlay(reg, msg.value.sessionId, msg.value.player, msg.value.position)
  {
    match msg
    case None => Done(reg, [])
    case Some(RegisterMsg(id)) =>
      (match OnRegister(reg, id, newId)
       case Done(r, pid) => Done(r, [Send(conn, Registered(pid))])
       case Threw(r, _) => Threw(r, []))
    case Some(JoinMsg(pid)) =>
      if pid.None? || pid.value == "" then Done(reg, [])
      else
        (match OnJoin(reg, conn, pid.value, newId)
         case Done(r, reply) => Done(r, [Send(conn, reply)])
         case Threw(r, _) => Threw(r, []))
    case Some(PlayMsg(id, player, position)) => OnPlay(reg, id, player, position)
    case Some(OtherMsg(_)) => Done(reg, [])
  }

  /**
   * What can happen to the engine: a message arrives on a connection, a connection closes, or
   * the listening socket fails, upon which `createServer` starts over with an empty map. The
   * restarted socket gets no `connection` listener (that is attached once, in `start`), so in
   * the source no new connection is served after a failure; the traces here still allow
   * messages from any connection, which only widens what the invariants cover.
   */
  datatype Event = Message(conn: Conn, msg: Option<Inbound>, newId: string) | Closed(conn: Conn) | ListenerError

  /**
   * The map after `e`, whether the handler returned or raised. Sessions are never removed or
   * renamed, and at most one is added per event, until the listener fails and the map restarts empty.
   */
  function Step(reg: Registry, e: Event): (r: Registry)
    ensures e.ListenerError? ==> r == []
    ensures !e.ListenerError? ==> |reg| <= |r| <= |reg| + 1
    ensures !e.ListenerError? ==> forall j :: 0 <= j < |reg| ==> r[j].0 == reg[j].0
  {
    match e
    case Message(c, msg, newId) => Handle(reg, c, msg, newId).reg
    case Closed(c) => OnClose(reg, c).reg
    case ListenerError => []
  }

  /** `getSessions`: the game state of every session, in insertion order. */
  function GameStates(reg: Registry): (r: seq<GameState>)
    ensures |r| == |reg|
    ensures forall j :: 0 <= j < |reg| ==> r[j] == reg[j].1.state
    decreases |reg|
  {
    if |reg| == 0 then [] else [reg[0].1.state] + GameStates(reg[1..])
  }

  function Run(reg: Registry, es: seq<Event>): Registry
    decreases |es|
  {
    if |es| == 0 then reg else Run(Step(reg, es[0]), es[1..])
  }
}

=== FILE: engine_props.dfy ===
/**
 * Properties of the engine of src/index.ts over single handlers and over whole traces.
 */
module EngineProps {
  import opened Common
  import opened SrcTypes
  import opened Engine

  /** Neither list repeats a position and no position is in both. */
  predicate ValidMoves(m: Moves) {
    NoDuplicates(m.playerA) && NoDuplicates(m.playerB) && Disjoint(m.playerA, m.playerB)
  }

  /** Unique session ids, and every game keeps valid move lists. */
  predicate WellFormed(reg: Registry) {
    KeysUnique(reg) && forall j :: 0 <= j < |reg| ==> ValidMoves(reg[j].1.state.moves)
  }

  /** No session has slot objects: what `createSession` leaves behind. */
  predicate Bare(reg: Registry) {
    forall j :: 0 <= j < |reg| ==> reg[j].1.playerA.None? && reg[j].1.playerB.None?
  }

  // ---------------------------------------------------------------- move lists

  /** Appending a position nobody holds keeps the lists duplicate-free and disjoint. */
  lemma PushKeepsValid(m: Moves, p: Player, position: int)
    requires ValidMoves(m) && !m.Taken(position)
    ensures ValidMoves(m.Push(p, position))
  {
    var r := m.Push(p, position);
    if p == A {
      assert r.playerA == m.playerA + [position];
      assert forall i :: 0 <= i < |r.playerA| - 1 ==> r.playerA[i] == m.playerA[i];
    } else {
      assert r.playerB == m.playerB + [position];
      assert forall i :: 0 <= i < |r.playerB| - 1 ==> r.playerB[i] == m.playerB[i];
    }
  }

  /** A play, accepted or not, keeps every session's move lists valid. */
  lemma PlayKeepsWellFormed(reg: Registry, id: string, player: Player, position: int)
    requires WellFormed(reg)
    ensures WellFormed(OnPlay(reg, id, player, position).reg)
  {
    var o := OnPlay(reg, id, player, position);
    if Find(reg, id).Some? {
      var i := Find(reg, id).value;
      if reg[i].1.state.turn == player && !reg[i].1.state.moves.Taken(position) {
        PushKeepsValid(reg[i].1.state.moves, player, position);
        var m' := o.reg[i].1.state.moves;
        var m := reg[i].1.state.moves;
        assert m'.Of(player) == m.Push(player, position).Of(player);
        assert m'.Of(player.Other()) == m.Push(player, position).Of(player.Other());
        assert m' == m.Push(player, position) by {
          if player == A { assert m'.playerA == m.Push(player, position).playerA; }
        }
      }
    }
  }

  /** A repeated claim of a taken cell never adds a move, whoever makes it. */
  lemma TakenCellAddsNoMove(reg: Registry, id: string, player: Player, position: int)
    requires Find(reg, id).Some? && reg[Find(reg, id).value].1.state.moves.Taken(position)
    ensures OnPlay(reg, id, player, position).reg[Find(reg, id).value].1.state.moves
         == reg[Find(reg, id).value].1.state.moves
  {
  }

  // ---------------------------------------------------------------- detaching

  lemma ReleaseIdempotent(slot: Slot, m: Match)
    ensures Release(Release(slot, m), m) == Release(slot, m)
  {
  }

  /** Running the detaching loop twice leaves what running it once left, thrown or not. */
  lemma {:induction false} ClearSlotsIdempotent(reg: Registry, m: Match)
    ensures ClearSlots(ClearSlots(reg, m).reg, m) == ClearSlots(reg, m)
    decreases |reg|
  {
    if |reg| > 0 {
      var (key, s) := reg[0];
      var o := ClearSlots(reg, m);
      if s.playerA.Some? {
        ReleaseIdempotent(s.playerA.value, m);
        if s.playerB.Some? {
          ReleaseIdempotent(s.playerB.value, m);
          ClearSlotsIdempotent(reg[1..], m);
          assert o.reg[1..] == ClearSlots(reg[1..], m).reg;
        } else {
          assert o.reg[1..] == reg[1..];
        }
      }
    }
  }

  /** Closing a connection is idempotent: a second close of the same connection changes nothing. */
  lemma CloseIdempotent(reg: Registry, conn: Conn)
    ensures OnClose(OnClose(reg, conn).reg, conn) == OnClose(reg, conn)
  {
    ClearSlotsIdempotent(reg, Connection(conn));
  }

  /** Registering the same identity twice detaches nothing more the second time. */
  lemma RegisterIdempotent(reg: Registry, id: string, newId: string)
    ensures OnRegister(OnRegister(reg, Some(id), newId).reg, Some(id), newId) == OnRegister(reg, Some(id), newId)
  {
    ClearSlotsIdempotent(reg, Identity(id));
  }

  // ---------------------------------------------------------------- matchmaking

  /**
   * Matchmaking always raises: the search misses only when every session has both slots, so
   * `findAvailableSession` creates a new slotless session, and reading its slot A raises.
   */
  lemma MatchmakingAlwaysRaises(reg: Registry, conn: Conn, pid: string, newId: string)
    requires FindPrevious(reg, pid).Missing?
    ensures OnJoin(reg, conn, pid, newId) == Threw(CreateSession(reg, newId).0, [])
  {
    assert FirstOpen(reg).None?;
  }

  /** `onJoin` on an empty server registers a new session, then raises reading its missing slot A. */
  lemma FirstJoinThrows(conn: Conn, pid: string, newId: string)
    ensures OnJoin([], conn, pid, newId) == Threw([(newId, Session(None, None, GameState(Some(newId), A, Moves([], []))))], [])
  {
  }

  // ---------------------------------------------------------------- traces

  lemma JoinKeepsWellFormed(reg: Registry, conn: Conn, pid: string, newId: string)
    requires WellFormed(reg)
    ensures WellFormed(OnJoin(reg, conn, pid, newId).reg)
  {
    match FindPrevious(reg, pid)
    case Fault =>
    case Found(i) =>
    case Missing =>
      var (reg1, i) := FindAvailable(reg, newId);
      assert WellFormed(reg1) by {
        if FirstOpen(reg).None? {
          forall j | 0 <= j < |reg1| ensures ValidMoves(reg1[j].1.state.moves) {
            var e := Session(None, None, New(Partial(Some(newId), None, None)));
            assert reg1 == Put(reg, newId, e);
            if reg1[j].0 == newId {
              assert j == i;
            }
          }
        }
      }
  }

  /** Every event keeps ids unique and all move lists duplicate-free and disjoint. */
  lemma StepKeepsWellFormed(reg: Registry, e: Event)
    requires WellFormed(reg)
    ensures WellFormed(Step(reg, e))
  {
    match e
    case ListenerError =>
    case Closed(c) =>
    case Message(c, msg, newId) =>
      match msg
      case None =>
      case Some(RegisterMsg(id)) =>
      case Some(JoinMsg(pid)) =>
        if pid.Some? && pid.value != "" { JoinKeepsWellFormed(reg, c, pid.value, newId); }
      case Some(PlayMsg(id, player, position)) => PlayKeepsWellFormed(reg, id, player, position);
      case Some(OtherMsg(_)) =>
  }

  /**
   * Over any sequence of messages and disconnects, session ids stay unique and the two move
   * lists of every session stay duplicate-free and pairwise disjoint.
   */
  lemma {:induction false} RunKeepsWellFormed(reg: Registry, es: seq<Event>)
    requires WellFormed(reg)
    ensures WellFormed(Run(reg, es))
    decreases |es|
  {
    if |es| > 0 {
      StepKeepsWellFormed(reg, es[0]);
      RunKeepsWellFormed(Step(reg, es[0]), es[1..]);
    }
  }

  /** On bare sessions the detaching loop raises at the first session, before changing anything. */
  lemma BareClearThrows(reg: Registry, m: Match)
    requires Bare(reg) && |reg| > 0
    ensures ClearSlots(reg, m) == Threw(reg, [])
  {
  }

  /** A play on bare sessions leaves them bare: an accepted play changes only the game state. */
  lemma PlayKeepsBare(reg: Registry, id: string, player: Player, position: int)
    requires Bare(reg)
    ensures Bare(OnPlay(reg, id, player, position).reg)
  {
  }

  /** A join on bare sessions raises, at worst after registering one more bare session. */
  lemma JoinKeepsBare(reg: Registry, conn: Conn, pid: string, newId: string)
    requires Bare(reg)
    ensures OnJoin(reg, conn, pid, newId).Threw?
    ensures Bare(OnJoin(reg, conn, pid, newId).reg)
  {
    if |reg| > 0 {
      assert FaultsAt(reg[0].1, pid);
    }
  }

  lemma StepKeepsBare(reg: Registry, e: Event)
    requires Bare(reg)
    ensures Bare(Step(reg, e))
  {
    match e
    case ListenerError =>
    case Closed(c) =>
      if |reg| > 0 { BareClearThrows(reg, Connection(c)); }
    case Message(c, msg, newId) =>
      match msg
      case None =>
      case Some(RegisterMsg(id)) =>
        if |reg| > 0 && id.Some? && id.value != "" { BareClearThrows(reg, Identity(id.value)); }
      case Some(JoinMsg(pid)) =>
        if pid.Some? && pid.value != "" { JoinKeepsBare(reg, c, pid.value, newId); }
      case Some(PlayMsg(id, player, position)) => PlayKeepsBare(reg, id, player, position);
      case Some(OtherMsg(_)) =>
  }

  /**
   * No slot object is ever created: from an empty server, after any sequence of events,
   * every session lacks both `playerA` and `playerB`, so no identity is ever bound to a seat.
   */
  lemma {:induction false} ReachableSessionsAreBare(reg: Registry, es: seq<Event>)
    requires Bare(reg)
    ensures Bare(Run(reg, es))
    decreases |es|
  {
    if |es| > 0 {
      StepKeepsBare(reg, es[0]);
      ReachableSessionsAreBare(Step(reg, es[0]), es[1..]);
    }
  }

  /**
   * Consequences for a server holding bare sessions: registering with an id, closing a
   * connection and joining all raise without changing the map, and an accepted play is
   * recorded and then raises while broadcasting, before any update is sent.
   */
  lemma BareServerThrows(reg: Registry, conn: Conn, id: string, newId: string, sid: string, player: Player, position: int)
    requires Bare(reg) && |reg| > 0 && id != ""
    ensures OnRegister(reg, Some(id), newId) == Threw(reg, [])
    ensures OnClose(reg, conn) == Threw(reg, [])
    ensures OnJoin(reg, conn, id, newId) == Threw(reg, [])
    ensures Find(reg, sid).Some? ==>
      var i := Find(reg, sid).value;
      reg[i].1.state.turn == player && !reg[i].1.state.moves.Taken(position) ==>
        && OnPlay(reg, sid, player, position).Threw?
        && Outbox(OnPlay(reg, sid, player, position)) == []
        && OnPlay(reg, sid, player, position).reg[i].1.state.moves.Of(player) == reg[i].1.state.moves.Of(player) + [position]
  {
    BareClearThrows(reg, Identity(id));
    BareClearThrows(reg, Connection(conn));
    assert FaultsAt(reg[0].1, id);
  }
}

=== FILE: http.dfy ===
/**
 * The HTTP front door of app/http.ts: the static-path sanitiser, the choice of route for a
 * request URL, and the reset of the game engine.
 */
module Http {
  import opened Common

  // ---------------------------------------------------------------- the sanitiser

  /** The number of dots `s` starts with. */
  function LeadingDots(s: string): (n: nat)
    ensures n <= |s|
    ensures forall i :: 0 <= i < n ==> s[i] == '.'
    ensures n < |s| ==> s[n] != '.'
    decreases |s|
  {
    if |s| == 0 || s[0] != '.' then 0 else 1 + LeadingDots(s[1..])
  }

  /**
   * `s.replace(/[.]{2,}/g, '.')`: scanning from the left, a dot that starts a run of two or
   * more dots matches the whole (greedy) run, which becomes one dot; anything else is kept.
   */
  function CollapseDots(s: string): (r: string)
    ensures |r| <= |s|
    ensures |s| > 0 ==> |r| > 0 && r[0] == s[0]
    decreases |s|
  {
    if |s| == 0 then ""
    else if s[0] == '.' && LeadingDots(s) >= 2 then "." + CollapseDots(s[LeadingDots(s)..])
    else [s[0]] + CollapseDots(s[1..])
  }

  /** Reference: drop every dot that is immediately followed by another dot. */
  function Squeeze(s: string): string
    decreases |s|
  {
    if |s| <= 1 then s
    else if s[0] == '.' && s[1] == '.' then Squeeze(s[1..])
    else [s[0]] + Squeeze(s[1..])
  }

  /** No two adjacent dots, i.e. the string does not contain "..". */
  predicate NoDoubleDot(s: string) {
    forall i :: 0 <= i < |s| - 1 ==> !(s[i] == '.' && s[i + 1] == '.')
  }

  /** The characters other than dots, in order. */
  function NonDots(s: string): string
    decreases |s|
  {
    if |s| == 0 then "" else (if s[0] == '.' then "" else [s[0]]) + NonDots(s[1..])
  }

  /** `url.slice(1)`: everything after the first character ('' for the empty string). */
  function Tail(url: string): string {
    if |url| == 0 then "" else url[1..]
  }

  /**
   * The sanitised path: the URL without its first character, with every run of two or more
   * dots replaced by one dot. It contains no "..", keeps the other characters in order, and is
   * left alone by a second sanitising pass.
   */
  function SanitizedPath(url: string): (p: string)
    ensures p == Squeeze(Tail(url))
    ensures NoDoubleDot(p)
    ensures NonDots(p) == NonDots(Tail(url))
    ensures CollapseDots(p) == p
  {
    var t := Tail(url);
    CollapseIsSqueeze(t);
    SqueezeNoDoubleDot(t);
    SqueezeKeepsNonDots(t);
    SqueezeFixesClean(Squeeze(t));
    CollapseIsSqueeze(Squeeze(t));
    CollapseDots(t)
  }

  /** A run of dots at the front of `s` squeezes to its last dot. */
  lemma {:induction false} SqueezeRun(s: string)
    requires |s| > 0 && s[0] == '.'
    ensures Squeeze(s) == "." + Squeeze(s[LeadingDots(s)..])
    decreases |s|
  {
    if |s| > 1 && s[1] == '.' {
      SqueezeRun(s[1..]);
      assert s[1..][LeadingDots(s[1..])..] == s[LeadingDots(s)..];
    }
  }

  /** The regular-expression rewrite and the reference agree on every string. */
  lemma {:induction false} CollapseIsSqueeze(s: string)
    ensures CollapseDots(s) == Squeeze(s)
    decreases |s|
  {
    if |s| > 0 {
      if s[0] == '.' && LeadingDots(s) >= 2 {
        SqueezeRun(s);
        CollapseIsSqueeze(s[LeadingDots(s)..]);
      } else {
        CollapseIsSqueeze(s[1..]);
        if s[0] == '.' {
          SqueezeRun(s);
        }
      }
    }
  }

  /** Squeezing keeps the first character. */
  lemma {:induction false} SqueezeHead(s: string)
    requires |s| > 0
    ensures |Squeeze(s)| > 0 && Squeeze(s)[0] == s[0]
    decreases |s|
  {
    if |s| > 1 && s[0] == '.' && s[1] == '.' {
      SqueezeHead(s[1..]);
    }
  }

  lemma {:induction false} SqueezeNoDoubleDot(s: string)
    ensures NoDoubleDot(Squeeze(s))
    decreases |s|
  {
    if |s| > 1 {
      SqueezeNoDoubleDot(s[1..]);
      if !(s[0] == '.' && s[1] == '.') {
        SqueezeHead(s[1..]);
        var r := Squeeze(s[1..]);
        assert Squeeze(s) == [s[0]] + r;
        assert forall i :: 1 <= i < |r| ==> ([s[0]] + r)[i] == r[i - 1] && ([s[0]] + r)[i + 1] == r[i];
      }
    }
  }

  /** Squeezing changes nothing in a string without "..": a second pass is a no-op. */
  lemma {:induction false} SqueezeFixesClean(s: string)
    requires NoDoubleDot(s)
    ensures Squeeze(s) == s
    decreases |s|
  {
    if |s| > 1 {
      assert NoDoubleDot(s[1..]) by {
        assert forall i :: 0 <= i < |s| - 1 ==> s[1..][i] == s[i + 1];
      }
      SqueezeFixesClean(s[1..]);
      assert !(s[0] == '.' && s[1] == '.');
      assert s == [s[0]] + s[1..];
    }
  }

  lemma {:induction false} SqueezeKeepsNonDots(s: string)
    ensures NonDots(Squeeze(s)) == NonDots(s)
    decreases |s|
  {
    if |s| > 1 {
      SqueezeKeepsNonDots(s[1..]);
      if !(s[0] == '.' && s[1] == '.') {
        var r := Squeeze(s[1..]);
        assert ([s[0]] + r)[1..] == r;
      }
    }
  }

  // ---------------------------------------------------------------- routes

  const SocketPort := "8080"
  const SocketPath := "/ws"
  /** The address the discovery route hands out. */
  const SocketUrl := "ws://localhost:" + SocketPort + SocketPath
  const SocketsBody := "[{\"url\":\"" + SocketUrl + "\"}]"

  predicate EndsWith(s: string, suffix: string) {
    |suffix| <= |s| && s[|s| - |suffix|..] == suffix
  }

  /** `/\.(js|css)$/.test(url)`. */
  predicate IsAsset(url: string) {
    EndsWith(url, ".js") || EndsWith(url, ".css")
  }

  datatype Response = IndexPage | StaticFile(path: string) | Text(body: string) | NotFound

  /** What the front door asks of the engine module. */
  datatype Effect = CloseEngine(engine: nat) | StartEngine(engine: nat)

  /** The live engine handle (`tttServer`), and how many engines were started so far. */
  datatype Server = Server(engine: Option<nat>, started: nat)

  /** `reset`: close the running engine, if any, and then start a new one. */
  function Reset(srv: Server): (r: (Server, seq<Effect>))
    ensures r.0.engine == Some(srv.started) && r.0.started == srv.started + 1
    ensures |r.1| > 0 && r.1[|r.1| - 1] == StartEngine(srv.started)
    ensures forall k :: 0 <= k < |r.1| - 1 ==> srv.engine.Some? && r.1[k] == CloseEngine(srv.engine.value)
    ensures srv.engine.Some? ==> r.1[0] == CloseEngine(srv.engine.value)
    ensures |r.1| == (if srv.engine.Some? then 2 else 1)
  {
    var closing := if srv.engine.Some? then [CloseEngine(srv.engine.value)] else [];
    (Server(Some(srv.started), srv.started + 1), closing + [StartEngine(srv.started)])
  }

  /** `startHttp`: no engine yet, so one is started. */
  function Boot(): (r: (Server, seq<Effect>))
    ensures r.0.engine.Some? && r.1 == [StartEngine(r.0.engine.value)]
  {
    Reset(Server(None, 0))
  }

  /** A request that reaches the `reset` case: not the index page, not a served asset, tail `reset`. */
  predicate IsReset(url: string, fileExists: string -> bool) {
    url != "/" && !(IsAsset(url) && fileExists(SanitizedPath(url))) && Tail(url) == "reset"
  }

  /**
   * The request handler: '/' is the index page; an asset URL whose sanitised file exists is
   * served; 'sockets' lists the engine address, 'reset' restarts the engine; anything else is 404.
   */
  function Route(srv: Server, url: string, fileExists: string -> bool): (r: (Server, Response, seq<Effect>))
    ensures url == "/" ==> r == (srv, IndexPage, [])
    ensures r.1.StaticFile? <==> url != "/" && IsAsset(url) && fileExists(SanitizedPath(url))
    ensures r.1.StaticFile? ==> r.1.path == SanitizedPath(url)
    ensures url != "/" && !(IsAsset(url) && fileExists(SanitizedPath(url))) && Tail(url) == "sockets" ==>
      r == (srv, Text(if srv.engine.None? then "[]" else SocketsBody), [])
    ensures IsReset(url, fileExists) ==> r == (Reset(srv).0, Text("OK"), Reset(srv).1)
    ensures !IsReset(url, fileExists) ==> r.0 == srv && r.2 == []
    ensures r.1.NotFound? <==>
      url != "/" && !(IsAsset(url) && fileExists(SanitizedPath(url))) && Tail(url) != "sockets" && Tail(url) != "reset"
  {
    if url == "/" then (srv, IndexPage, [])
    else
      var path := SanitizedPath(url);
      if IsAsset(url) && fileExists(path) then (srv, StaticFile(path), [])
      else if Tail(url) == "sockets" then
        (srv, Text(if srv.engine.None? then "[]" else SocketsBody), [])
      else if Tail(url) == "reset" then
        var (srv', effects) := Reset(srv);
        (srv', Text("OK"), effects)
      else (srv, NotFound, [])
  }

  /** The discovery route answers '[]' before any engine runs, else the one engine address. */
  lemma SocketsAnswer(srv: Server, fileExists: string -> bool)
    ensures Route(srv, "/sockets", fileExists).1 == Text(if srv.engine.None? then "[]" else SocketsBody)
    ensures Route(srv, "/sockets", fileExists).0 == srv
  {
    var url := "/sockets";
    assert !EndsWith(url, ".js") by { assert url[|url| - 3] == 'e'; }
    assert !EndsWith(url, ".css") by { assert url[|url| - 4] == 'k'; }
    assert Tail(url) == "sockets";
  }

  /** The address handed out is the engine's port and path on localhost. */
  lemma SocketsBodyText()
    ensures SocketsBody == "[{\"url\":\"ws://localhost:8080/ws\"}]"
  {
  }

  /** The engines started and not yet closed, after the effects in `log`. */
  function Live(log: seq<Effect>): set<nat>
    decreases |log|
  {
    if |log| == 0 then {}
    else
      var before := Live(log[..|log| - 1]);
      match log[|log| - 1]
      case StartEngine(e) => before + {e}
      case CloseEngine(e) => before - {e}
  }

  /** The server's handle is the one live engine, and every handle used so far is below `started`. */
  predicate Consistent(srv: Server, log: seq<Effect>) {
    && Live(log) == (if srv.engine.Some? then {srv.engine.value} else {})
    && (srv.engine.Some? ==> srv.engine.value < srv.started)
    && forall k :: 0 <= k < |log| ==> log[k].engine < srv.started
  }

  /** The live engines after one more effect. */
  lemma LiveSnoc(log: seq<Effect>, e: Effect)
    ensures Live(log + [e]) == if e.StartEngine? then Live(log) + {e.engine} else Live(log) - {e.engine}
  {
    assert (log + [e])[..|log|] == log;
  }

  /** A reset closes the running engine before starting the next, so the handle stays the one live engine. */
  lemma ResetKeepsConsistent(srv: Server, log: seq<Effect>)
    requires Consistent(srv, log)
    ensures Consistent(Reset(srv).0, log + Reset(srv).1)
  {
    var start := StartEngine(srv.started);
    if srv.engine.Some? {
      var closed := log + [CloseEngine(srv.engine.value)];
      LiveSnoc(log, CloseEngine(srv.engine.value));
      LiveSnoc(closed, start);
      assert log + Reset(srv).1 == closed + [start];
    } else {
      LiveSnoc(log, start);
      assert Reset(srv).1 == [start];
    }
  }

  /** One route keeps the server's handle equal to the set of live engines. */
  lemma RouteKeepsConsistent(srv: Server, log: seq<Effect>, url: string, fileExists: string -> bool)
    requires Consistent(srv, log)
    ensures Consistent(Route(srv, url, fileExists).0, log + Route(srv, url, fileExists).2)
  {
    if IsReset(url, fileExists) {
      ResetKeepsConsistent(srv, log);
    } else {
      assert log + Route(srv, url, fileExists).2 == log;
    }
  }

  /**
   * Whatever requests arrive after start-up, at most one engine is live at a time and it is
   * the one the server holds: every reset closes the running engine before starting the next.
   */
  lemma {:induction false} OneLiveEngine(srv: Server, log: seq<Effect>, urls: seq<string>, fileExists: string -> bool)
    requires Consistent(srv, log)
    ensures Consistent(Serve(srv, log, urls, fileExists).0, Serve(srv, log, urls, fileExists).1)
    ensures |Live(Serve(srv, log, urls, fileExists).1)| <= 1
    decreases |urls|
  {
    if |urls| > 0 {
      RouteKeepsConsistent(srv, log, urls[0], fileExists);
      var r := Route(srv, urls[0], fileExists);
      OneLiveEngine(r.0, log + r.2, urls[1..], fileExists);
    }
  }

  /** The server and its effect log after handling `urls` in order. */
  function Serve(srv: Server, log: seq<Effect>, urls: seq<string>, fileExists: string -> bool): (Server, seq<Effect>)
    decreases |urls|
  {
    if |urls| == 0 then (srv, log)
    else
      var r := Route(srv, urls[0], fileExists);
      Serve(r.0, log + r.2, urls[1..], fileExists)
  }

  /** Start-up leaves one live engine. */
  lemma BootConsistent()
    ensures Consistent(Boot().0, Boot().1)
  {
    assert Boot().1[..0] == [];
  }
}

=== FILE: src_types.dfy ===
/**
 * The earlier game state of src/types.ts, used by the engine of src/index.ts.
 * Unlike the later variant it stores whose turn it is.
 */
module SrcTypes {
  import opened Common

  datatype Moves = Moves(playerA: seq<int>, playerB: seq<int>) {
    /** The list of seat `p`. */
    function Of(p: Player): seq<int> {
      if p == A then playerA else playerB
    }

    /** Appends `position` to seat `p`'s list (the `push` of the engine). */
    function Push(p: Player, position: int): (r: Moves)
      ensures r.Of(p) == Of(p) + [position]
      ensures r.Of(p.Other()) == Of(p.Other())
    {
      if p == A then Moves(playerA + [position], playerB)
      else Moves(playerA, playerB + [position])
    }

    /** True when some seat has already claimed `position`. */
    predicate Taken(position: int): (r: bool)
      ensures r <==> position in playerA || position in playerB
    {
      !Absent(playerA, position) || !Absent(playerB, position)
    }
  }

  datatype GameState = GameState(id: Option<string>, turn: Player, moves: Moves)

  /** A `Partial<GameState>`: a `None` field is a key the caller left out. */
  datatype Partial = Partial(id: Option<string>, turn: Option<Player>, moves: Option<Moves>)

  /** `new GameState(p)`: `turn` defaults to A and both move lists to empty, then `Object.assign`. */
  function New(p: Partial): (s: GameState)
    ensures s.id == p.id
    ensures p.turn.None? ==> s.turn == A
    ensures p.turn.Some? ==> s.turn == p.turn.value
    ensures p.moves.None? ==> s.moves.playerA == [] && s.moves.playerB == []
    ensures p.moves.Some? ==> s.moves == p.moves.value
  {
    GameState(p.id, p.turn.GetOr(A), p.moves.GetOr(Moves([], [])))
  }

  /** The fields of a state, as a partial that overrides every default. */
  function Fields(s: GameState): Partial {
    Partial(s.id, Some(s.turn), Some(s.moves))
  }

  /** `toJSON`: exactly the fields id, turn and moves. */
  datatype StateJson = StateJson(id: Option<string>, turn: Player, moves: Moves)

  function ToJson(s: GameState): (j: StateJson)
    ensures FromJson(j) == s
  {
    StateJson(s.id, s.turn, s.moves)
  }

  function FromJson(j: StateJson): GameState {
    New(Partial(j.id, Some(j.turn), Some(j.moves)))
  }

  /** A state built from an id alone (as the engine does) has A to move and no moves. */
  lemma FreshState(id: string)
    ensures New(Partial(Some(id), None, None)) == GameState(Some(id), A, Moves([], []))
  {
  }

  /** Every state is what the constructor makes of its own fields: overrides always win. */
  lemma ConstructorKeepsOverrides(s: GameState)
    ensures New(Fields(s)) == s
  {
  }

  /** Serialising keeps every field, so a state survives the JSON round trip. */
  lemma JsonRoundTrip(s: GameState)
    ensures FromJson(ToJson(s)) == s
    ensures ToJson(s).turn == s.turn && ToJson(s).moves == s.moves && ToJson(s).id == s.id
  {
  }
}
